=== FILE: README.md ===
# YouTube media type: a Dafny model

This project models the YouTube media-type plugin of the `media_entity_youtube`
Drupal module (`src/Plugin/MediaEntity/Type/YouTube.php`). The plugin lets a media
entity hold a YouTube URL or embed code. It does four things:

- It validates the stored reference against five regular expressions.
- It extracts the video identifier from the `id` group of the first pattern that matches.
- It derives fields from that identifier: the id itself, a local thumbnail path, a
  downloaded local thumbnail, and a remote thumbnail URL.
- It reports a thumbnail for the entity.

The model is functional. Strings are `seq<char>`. The configuration values are passed
in a `Settings` record. The file system and the network are the functions of a
`World` record. The instance's one-slot metadata memo is a `Cache` value that each
call receives and hands back.

Modules:

- `Ascii`: caseless folding and the identifier class `[a-z0-9_-]` under the `i` flag.
- `Patterns`: the five patterns. Each pattern is an ordered list of literal
  alternatives (scheme × `-nocookie` or not × path), and each alternative is a `Shape`.
- `Matcher`: one pattern run as an unanchored, caseless `preg_match`. The match starts
  at the leftmost position where an alternative's text is followed by at least one
  identifier character. The capture is the longest run of identifier characters after
  the text. Declarative predicates (`MatchesAt`, `Occurs`, `IsLeftmostCapture`) state
  what the search must return, independently of how it searches.
- `Extraction`: `matchRegexp`, meaning the five patterns tried in order, and the
  captured id.
- `Thumbnails`: the widest-thumbnail loop of the `image_local` fallback.
- `Remote`: the metadata feed, `getMetadata`'s memo, and the count of feed loads.
- `YouTube`: `validate`, `getField`, `providedFields`, `thumbnail`, and runs of calls
  on one instance, in which each call sees the files the earlier ones saved.
- `Examples`: concrete references and the identifier each yields.

Points of the code's behaviour the model keeps as written:

- The patterns are not mutually exclusive. Every match of pattern 1 (2) is also a
  match of pattern 3 (4) a few characters later. The order of the patterns only
  decides which identifier is taken when a reference contains several URLs
  (`SchemeFormHasRelativeForm`, `AcceptedIffShortForm`).
- The metadata memo keeps the first load's result, FALSE included: `isset` is true of
  FALSE, so a failed load is never retried and a later id gets the first id's document.
- Only `image_local` is handled as a local-thumbnail field. `thumbnail` asks for
  `local_image`, which no case handles, so it always reports the icon.
- A failed feed load in the `image_local` fallback is fatal: a method is called on
  FALSE. `remote_thumbnail` on a feed without thumbnails is fatal too: it calls a
  method on a missing element. Both are modelled as the `Fatal` outcome.
- `!$data` is true of FALSE, of `""` and of `"0"`. A downloaded image whose content is
  `"0"` therefore triggers the fallback (`Truthy`).
- Line 141 lacks its semicolon. The model gives it the evident meaning: download the
  chosen URL into `$data`.

## Model

| member | source | states |
|---|---|---|
| `Ascii.IsIdChar` | src/Plugin/MediaEntity/Type/YouTube.php:43-47 | under the caseless flag the class `[a-z0-9_-]` is exactly ASCII letters of either case, digits, `_` and `-` |
| `Patterns.DistinctShapesDiverge` | src/Plugin/MediaEntity/Type/YouTube.php:42-48 | any two different expanded alternatives of the patterns disagree, caselessly, within their common length (`http:`/`https` at the fifth character, `.com`/`-nocookie` after `youtube`) |
| `Matcher.OneShapeAt` | src/Plugin/MediaEntity/Type/YouTube.php:43-47 | at one position at most one alternative's text can occur, so the order of the alternation does not matter |
| `Matcher.ShapeAt` | src/Plugin/MediaEntity/Type/YouTube.php:43-47 | the alternative found at a position is one of the pattern's and its text occurs there; none found means no alternative occurs there |
| `Matcher.RunEnd` | src/Plugin/MediaEntity/Type/YouTube.php:43-47 | the greedy `[a-z0-9_-]+` stops exactly at the first non-identifier character or at the end |
| `Matcher.SpanAt` | src/Plugin/MediaEntity/Type/YouTube.php:43-47 | a match anchored at a position exists iff an alternative's text is there followed by an identifier character, and its capture is the maximal run right after the text |
| `Matcher.FindFrom` | src/Plugin/MediaEntity/Type/YouTube.php:245 | the search returns a capture at the leftmost matching position at or after its start, and nothing only when no later position matches |
| `Matcher.Find` | src/Plugin/MediaEntity/Type/YouTube.php:245 | `preg_match` of one pattern: no match iff the pattern occurs nowhere; otherwise the leftmost capture |
| `Matcher.LeftmostCaptureUnique` | src/Plugin/MediaEntity/Type/YouTube.php:245 | a subject has at most one leftmost capture, so the extracted identifier is deterministic |
| `Matcher.FindIsLeftmostCapture` | src/Plugin/MediaEntity/Type/YouTube.php:245 | the search returns a span iff that span is the leftmost capture (both directions) |
| `Matcher.FindIgnoresCase` | src/Plugin/MediaEntity/Type/YouTube.php:43-47 | subjects differing only in letter case give the same match at the same place |
| `Extraction.FirstHit` | src/Plugin/MediaEntity/Type/YouTube.php:243-248 | trying patterns in order returns the first pattern that occurs with its leftmost capture, and nothing iff none occurs |
| `Extraction.MatchRegexp` | src/Plugin/MediaEntity/Type/YouTube.php:240-251 | FALSE iff none of the five patterns occurs anywhere; otherwise the selection: no earlier pattern occurs and the span is the chosen pattern's leftmost capture |
| `Extraction.VideoId` | src/Plugin/MediaEntity/Type/YouTube.php:120-123 | the id exists iff some pattern occurs; it is non-empty, made only of `[A-Za-z0-9_-]`, and is the reference's own text at the selected span |
| `Extraction.MatchRegexpIsSelection` | src/Plugin/MediaEntity/Type/YouTube.php:240-251 | the ordered search returns a hit iff that hit is the first-pattern, leftmost capture (both directions) |
| `Extraction.SchemeFormHasRelativeForm` | src/Plugin/MediaEntity/Type/YouTube.php:43-46 | whenever pattern 1 (2) occurs, pattern 3 (4) occurs too |
| `Extraction.AcceptedIffShortForm` | src/Plugin/MediaEntity/Type/YouTube.php:42-48 | a reference matches iff it contains a protocol-relative embed or `/v/` URL or an `http(s)` `watch?v=` URL followed by an id character |
| `Extraction.MatchRegexpIgnoresCase` | src/Plugin/MediaEntity/Type/YouTube.php:42-48 | references differing only in case select the same pattern and span |
| `Extraction.VideoIdIgnoresCase` | src/Plugin/MediaEntity/Type/YouTube.php:42-48 | references differing only in case both yield an id or both do not, and the ids differ only in case |
| `Thumbnails.Scan` | src/Plugin/MediaEntity/Type/YouTube.php:135-140 | the loop's result is at least its start and every listed width; it keeps the start URL when nothing is wider, else the URL of the first entry of the final width, with every earlier entry narrower |
| `Thumbnails.PickThumbnail` | src/Plugin/MediaEntity/Type/YouTube.php:131-140 | with no width above 0 the max-res default is kept; otherwise the URL of the first entry of strictly maximal width |
| `Thumbnails.FirstWidestUnique` | src/Plugin/MediaEntity/Type/YouTube.php:135-140 | the first entry of maximal width is unique |
| `Remote.GetMetadata` | src/Plugin/MediaEntity/Type/YouTube.php:259-265 | loads the feed of the given id only when nothing is held; the result is held afterwards, FALSE included |
| `Remote.MemoIgnoresLaterIds` | src/Plugin/MediaEntity/Type/YouTube.php:259-265 | over any sequence of lookups at most one feed load happens, and every lookup returns the first id's document (or the one already held) |
| `YouTube.Validate` | src/Plugin/MediaEntity/Type/YouTube.php:212-218 | valid iff some pattern occurs; otherwise the exception carries the configured source field and the message |
| `YouTube.ValidateIffVideoId` | src/Plugin/MediaEntity/Type/YouTube.php:212-218 | `validate` accepts exactly when `getField` yields a video id |
| `YouTube.ImageLocal` | src/Plugin/MediaEntity/Type/YouTube.php:125-148 | existing file: FALSE with no effect; otherwise the max-res URL is requested first; a truthy max-res download is saved as it is and the local path returned, with no feed load and the cache untouched; a falsy one goes through the memo, which afterwards holds what the lookup holds; its requests are then exactly the max-res download, the lookup's feed load if any, and, when a document is held, one download of the URL the widest-thumbnail loop picks, whose data alone is saved at the local path; the call is fatal exactly when the download is falsy and the feed is FALSE; a returned value is the local path with exactly one save to it; a fatal error saves nothing |
| `YouTube.RemoteThumbnail` | src/Plugin/MediaEntity/Type/YouTube.php:153-158 | FALSE when the memo's document is FALSE; the first thumbnail's URL when it has thumbnails; fatal when it has none; the cache afterwards and the requests are exactly the memo lookup's, so a fresh instance loads this video's feed and keeps it; never saves |
| `YouTube.GetField` | src/Plugin/MediaEntity/Type/YouTube.php:119-183 | FALSE without effects when no pattern matches; `video_id` is the captured id; `image_local_uri` is base + "/" + id + ".jpg"; `image_local` and `remote_thumbnail` are exactly the `image_local` and `remote_thumbnail` cases for the captured id, effects and cache included; every other name (width, height, autoplay, privacy_mode, unknown) is FALSE; only `image_local` writes; feed loads never exceed the instance's budget |
| `YouTube.TextOnlyForProvidedFields` | src/Plugin/MediaEntity/Type/YouTube.php:103-114 | a string result comes only for a name `providedFields` lists; `local_image` is not listed |
| `YouTube.FieldsDependOnlyOnId` | src/Plugin/MediaEntity/Type/YouTube.php:119-123 | two references with the same extraction result give identical field results |
| `YouTube.ImageLocalAgreesWithUri` | src/Plugin/MediaEntity/Type/YouTube.php:125-151 | a path returned by `image_local` is the `image_local_uri` path; FALSE with no request and no write exactly when that file exists |
| `YouTube.ImageLocalFallsBackToWidest` | src/Plugin/MediaEntity/Type/YouTube.php:131-146 | when the max-res download is falsy and a document is available, the last download is the widest-thumbnail choice, its data is saved to the local path, and the path is returned |
| `YouTube.RemoteThumbnailIsStale` | src/Plugin/MediaEntity/Type/YouTube.php:153-158 | once a document is held, every matching reference gets its first thumbnail URL, whatever video it names |
| `YouTube.Thumbnail` | src/Plugin/MediaEntity/Type/YouTube.php:223-228 | always the icon base + "/youtube.png", with no request, no write and the cache unchanged |
| `YouTube.Session` | src/Plugin/MediaEntity/Type/YouTube.php:119-183 | a request's `getField` calls on one instance give at most one outcome per call, and at least one when there is a call |
| `YouTube.SessionRunsCallsInOrder` | src/Plugin/MediaEntity/Type/YouTube.php:119-183 | a request's first outcome is its first call's; after a call that returns, the later calls run where that call's saved files exist (`AfterSavesSees`) and on the cache it left, and its requests and saves come first |
| `YouTube.SessionStopsAtFirstFatal` | src/Plugin/MediaEntity/Type/YouTube.php:119-183 | every outcome but the last returned, and a request cut short ends in a fatal error |
| `YouTube.FreshInstanceRemoteThumbnailIsStale` | src/Plugin/MediaEntity/Type/YouTube.php:153-158 | on a fresh instance, after `remote_thumbnail` of one video, `remote_thumbnail` of any other video returns the first video's first thumbnail; the only feed load is the first video's, and its document stays held |
| `YouTube.FreshInstanceFailedLoadIsHeld` | src/Plugin/MediaEntity/Type/YouTube.php:259-265 | on a fresh instance whose feed load fails, `remote_thumbnail` returns FALSE, and a second `remote_thumbnail` for any video returns FALSE too with no request of its own: FALSE is held and never retried |
| `YouTube.SecondImageLocalFindsTheFile` | src/Plugin/MediaEntity/Type/YouTube.php:128-148 | asking twice for `image_local` saves at most once: the second call finds the first call's file and returns FALSE |
| `YouTube.SessionLoadsFeedAtMostOnce` | src/Plugin/MediaEntity/Type/YouTube.php:259-265 | over any sequence of `getField` calls on one instance the feed is loaded at most once, and never once something is held |
| `Examples.NotAUrlIsRejected` | src/Plugin/MediaEntity/Type/YouTube.php:212-218 | the value `not a url` matches no pattern: it yields no identifier and `validate` raises the exception naming the source field |
| `Examples.NoCookieEmbedId` | src/Plugin/MediaEntity/Type/YouTube.php:42-48 | `https://www.youtube-nocookie.com/embed/abc123_-XY` is taken by the first pattern and yields `abc123_-XY` |
| `Examples.RelativeVId` | src/Plugin/MediaEntity/Type/YouTube.php:42-48 | `//www.youtube.com/v/xyz789` matches none of the first three patterns and yields `xyz789` through the fourth |
| `Examples.WatchId` | src/Plugin/MediaEntity/Type/YouTube.php:42-48 | `https://www.youtube.com/watch?v=dQw4w9WgXcQ` matches none of the embed and `v/` patterns and yields `dQw4w9WgXcQ` through the last |
| `Examples.WholeReferenceId` | src/Plugin/MediaEntity/Type/YouTube.php:240-251 | a reference that is exactly one alternative's text followed by an identifier yields that identifier, when no earlier pattern occurs in it |
| `Examples.OccurrenceCarriesPair` | src/Plugin/MediaEntity/Type/YouTube.php:42-48 | a pattern all of whose alternatives contain two given adjacent characters occurs only in references that contain them, caselessly |

## Left out

- Plugin plumbing is not modelled: `create`, `__construct`, `label`, the `@MediaType`
  annotation and translation strings. It is framework wiring with no logic of its own.
- `settingsForm` is not modelled. It is form building over the framework's field
  definitions, which is UI.
- Configuration lookups become plain `Settings` values. The key names
  (`media_entity_twitter.settings` for `local_images`, `media_entity.settings` for
  `icon_base`) only name where the values come from.
- The source field's property access becomes a plain reference string.
- Files and the network are not modelled. `file_exists`, `file_get_contents` and
  `simplexml_load_file` are the functions of a `World`. `file_unmanaged_save_data` is
  recorded as a `Save`.
- `file_prepare_directory` is not modelled, because its effect belongs to the
  framework's file layer.
- The feed document is reduced to its list of (width, url) thumbnails. SimpleXML's
  own truthiness rules for a loaded document are not modelled: any loaded document
  counts as true.
- The `(int)` cast of the width attribute is not modelled. The width is taken as an
  integer already.
- `remote_thumbnail` returns an attribute object in PHP. The model returns its URL
  string.
- The switch's loose comparison for non-string names is not modelled: field names are
  strings.
- PCRE is not modelled in general, only the five fixed patterns. Subjects are
  sequences of characters under ASCII case folding, as PHP's byte-oriented, non-UTF
  matching does.
- Only four concrete references are worked through (`Examples`). Unfolding
  `VideoId` on a literal string is too costly for the verifier, so each example is
  proved from the declarative selection instead.
- `World.fetch` is a function, so two downloads of the same URL in one call return
  the same data. This matters when no thumbnail is wider than 0: the fallback then
  downloads the max-resolution URL a second time (lines 131 and 141), and the model
  gives that second download the same falsy result.
- `YouTube.Session`: every save is taken to create its file for the later calls. A
  failed write, which would leave the file missing, is not modelled. The function's
  own contract only bounds the number of outcomes; their order and values are stated by
  `YouTube.SessionRunsCallsInOrder` and `YouTube.SessionStopsAtFirstFatal`.

=== FILE: ascii.dfy ===
/** Character-level notions of the plugin's regular expressions, which all carry the
    caseless flag `i` and run on byte strings, so case folding is plain ASCII folding. */
module Ascii {

  /** Caseless folding: upper-case ASCII letters map to lower case, every other
      character is left alone. */
  function Fold(c: char): char
  {
    if 'A' <= c <= 'Z' then (c as int + 32) as char else c
  }

  /** Membership in the class `[a-z0-9_-]` under the caseless flag: the class is
      tested against the folded character, so upper-case letters belong too. */
  predicate IsIdChar(c: char)
    ensures IsIdChar(c) <==> ('a' <= c <= 'z' || 'A' <= c <= 'Z' || '0' <= c <= '9' || c == '_' || c == '-')
  {
    var d := Fold(c);
    'a' <= d <= 'z' || '0' <= d <= '9' || d == '_' || d == '-'
  }

  /** Two strings of the same length that differ at most in the case of ASCII letters. */
  predicate CaselessEqual(s: string, t: string)
  {
    |s| == |t| && forall k :: 0 <= k < |s| ==> Fold(s[k]) == Fold(t[k])
  }

  /** Changing the case of a character never moves it into or out of the identifier class. */
  lemma IdCharIgnoresCase(a: char, b: char)
    requires Fold(a) == Fold(b)
    ensures IsIdChar(a) <==> IsIdChar(b)
  {
  }

  /** Corresponding slices of caselessly equal strings are caselessly equal. */
  lemma SliceIgnoresCase(s: string, t: string, i: nat, j: nat)
    requires CaselessEqual(s, t) && i <= j <= |s|
    ensures CaselessEqual(s[i..j], t[i..j])
  {
    var a, b := s[i..j], t[i..j];
    forall k | 0 <= k < |a|
      ensures Fold(a[k]) == Fold(b[k])
    {
      assert a[k] == s[i + k] && b[k] == t[i + k];
    }
  }
}

=== FILE: examples.dfy ===
/** Worked references: the identifier the plugin extracts from a few concrete
    stored values, and a value it rejects. */
module Examples {
  import opened Wrappers
  import opened Ascii
  import opened Patterns
  import opened Matcher
  import opened Extraction
  import opened YouTube

  /** Every alternative's literal text is at least as long as `//www.youtube.com/v/`. */
  lemma TextIsLong(x: Shape)
    ensures |Text(x)| >= 20
  {
  }

  /** A pattern none of whose alternatives fits in `s` does not occur in it. */
  lemma TooShortForAny(pat: Pattern, s: string)
    requires |s| < 20
    ensures !Occurs(pat, s)
  {
    forall i, x | 0 <= i <= |s| && x in pat
      ensures !PrefixAt(s, i, Text(x))
    {
      TextIsLong(x);
    }
  }

  /** A literal that occurs at `i` puts, caselessly, its `k`-th character at `i + k`. */
  lemma CharOfPrefix(s: string, i: nat, p: string, k: nat)
    requires PrefixAt(s, i, p) && k < |p|
    ensures Fold(s[i + k]) == Fold(p[k])
  {
    assert s[i..i + |p|][k] == s[i + k];
  }

  /** No two adjacent characters of `s` fold to `a` followed by `b`. */
  predicate LacksPair(s: string, a: char, b: char)
  {
    forall j :: 0 <= j < |s| - 1 ==> !(Fold(s[j]) == a && Fold(s[j + 1]) == b)
  }

  /** `p` has `a` followed by `b` at some position. */
  predicate HasPair(p: string, a: char, b: char)
  {
    exists k :: 0 <= k < |p| - 1 && p[k] == a && p[k + 1] == b
  }

  /** Two strings that lack a pair, and do not form it where they meet, lack it
      joined. */
  lemma LacksPairJoin(s: string, t: string, a: char, b: char)
    requires LacksPair(s, a, b) && LacksPair(t, a, b)
    requires |s| > 0 && |t| > 0 && !(Fold(s[|s| - 1]) == a && Fold(t[0]) == b)
    ensures LacksPair(s + t, a, b)
  {
    var u := s + t;
    forall j | 0 <= j < |u| - 1
      ensures !(Fold(u[j]) == a && Fold(u[j + 1]) == b)
    {
      if j + 1 < |s| {
        assert u[j] == s[j] && u[j + 1] == s[j + 1];
      } else if j + 1 == |s| {
        assert u[j] == s[|s| - 1] && u[j + 1] == t[0];
      } else {
        assert u[j] == t[j - |s|] && u[j + 1] == t[j + 1 - |s|];
      }
    }
  }

  /** A literal containing the pair `a b` carries it to where it occurs. */
  lemma PairCarried(s: string, i: nat, p: string, a: char, b: char)
    requires Fold(a) == a && Fold(b) == b
    requires PrefixAt(s, i, p) && HasPair(p, a, b)
    ensures !LacksPair(s, a, b)
  {
    var k :| 0 <= k < |p| - 1 && p[k] == a && p[k + 1] == b;
    CharOfPrefix(s, i, p, k);
    CharOfPrefix(s, i, p, k + 1);
    assert Fold(s[i + k]) == a && Fold(s[i + k + 1]) == b;
  }

  /** Where a pattern every alternative of which contains the pair `a b` occurs, the
      pair occurs too; so a reference lacking the pair does not match the pattern. */
  lemma OccurrenceCarriesPair(pat: Pattern, s: string, a: char, b: char)
    requires Fold(a) == a && Fold(b) == b
    requires forall x :: x in pat ==> HasPair(Text(x), a, b)
    ensures Occurs(pat, s) ==> !LacksPair(s, a, b)
  {
    if Occurs(pat, s) {
      var i :| 0 <= i <= |s| && MatchesAt(pat, s, i);
      var x :| x in pat && PrefixAt(s, i, Text(x));
      PairCarried(s, i, Text(x), a, b);
    }
  }

  /** Every alternative with a scheme has `:/` where the scheme ends. */
  lemma SchemeTextsHaveColonSlash(x: Shape)
    requires x.scheme != Relative
    ensures HasPair(Text(x), ':', '/')
  {
    var k := |SchemeText(x.scheme)| - 1;
    assert Text(x)[k] == ':' && Text(x)[k + 1] == '/';
  }

  /** Every embed alternative ends with `d/`. */
  lemma EmbedTextsHaveDSlash(x: Shape)
    requires x.path == Embed
    ensures HasPair(Text(x), 'd', '/')
  {
    var k := |Text(x)| - 2;
    assert Text(x)[k] == 'd' && Text(x)[k + 1] == '/';
  }

  /** Every `v/` alternative ends with `v/`. */
  lemma VTextsHaveVSlash(x: Shape)
    requires x.path == V
    ensures HasPair(Text(x), 'v', '/')
  {
    var k := |Text(x)| - 2;
    assert Text(x)[k] == 'v' && Text(x)[k + 1] == '/';
  }

  /** A selected hit determines the extracted identifier. */
  lemma SelectedId(s: string, h: Hit)
    requires Selects(s, h) && h.span.start <= h.span.end <= |s|
    ensures VideoId(s) == Some(s[h.span.start..h.span.end])
  {
    MatchRegexpIsSelection(s, h);
  }

  /** A value that is no URL at all, shorter than any alternative's text. */
  const NotAUrl: string := "not a url"

  /** A value with no YouTube URL in it is rejected and yields no identifier. */
  lemma NotAUrlIsRejected(settings: Settings)
    ensures VideoId(NotAUrl).None?
    ensures Validate(settings, NotAUrl) == Invalid(MediaTypeException(settings.sourceField, "Not valid URL/embed code."))
  {
    forall j | 0 <= j < |ValidationPatterns|
      ensures !Occurs(ValidationPatterns[j], NotAUrl)
    {
      TooShortForAny(ValidationPatterns[j], NotAUrl);
    }
  }

  /** Every character of `w` is an identifier character. */
  predicate AllIdChars(w: string)
  {
    forall k :: 0 <= k < |w| ==> IsIdChar(w[k])
  }

  /** A reference that is one alternative's text followed by exactly an identifier is
      matched at its start, and the whole identifier is captured. */
  lemma WholeReference(x: Shape, w: string, pats: seq<Pattern>, n: nat)
    requires n < |pats| && x in pats[n] && 0 < |w| && AllIdChars(w)
    ensures IsLeftmostCapture(pats[n], Text(x) + w, Span(|Text(x)|, |Text(x)| + |w|))
  {
    var s := Text(x) + w;
    var sp := Span(|Text(x)|, |Text(x)| + |w|);
    assert s[0..|Text(x)|] == Text(x);
    assert PrefixAt(s, 0, Text(x));
    forall k | sp.start <= k < sp.end
      ensures IsIdChar(s[k])
    {
      assert s[k] == w[k - |Text(x)|];
    }
    assert CapturesAt(pats[n], s, 0, sp);
  }

  /** The identifier that follows a leading literal is the rest of the reference. */
  lemma RestAfter(t: string, w: string)
    ensures (t + w)[|t|..|t + w|] == w
  {
  }

  /** A reference that is one alternative's text followed by exactly an identifier
      yields that identifier, provided no earlier pattern occurs in it. */
  lemma WholeReferenceId(x: Shape, w: string, n: nat)
    requires n < |ValidationPatterns| && x in ValidationPatterns[n]
    requires 0 < |w| && AllIdChars(w)
    requires forall j :: 0 <= j < n ==> !Occurs(ValidationPatterns[j], Text(x) + w)
    ensures VideoId(Text(x) + w) == Some(w)
  {
    var t := Text(x);
    var s := t + w;
    var h := Hit(n, Span(|t|, |s|));
    WholeReference(x, w, ValidationPatterns, n);
    SelectedId(s, h);
    RestAfter(t, w);
  }

  /** A privacy-enhanced embed URL with scheme. */
  const NoCookieEmbed: string := "https://www.youtube-nocookie.com/embed/" + "abc123_-XY"

  lemma NoCookieEmbedText()
    ensures Text(Shape(Https, NoCookie, Embed)) == "https://www.youtube-nocookie.com/embed/"
  {
  }

  lemma NoCookieEmbedIdChars()
    ensures AllIdChars("abc123_-XY")
  {
  }

  /** The privacy-enhanced embed URL yields the identifier after `embed/`. */
  lemma NoCookieEmbedId()
    ensures VideoId(NoCookieEmbed) == Some("abc123_-XY")
  {
    NoCookieEmbedText();
    NoCookieEmbedIdChars();
    WholeReferenceId(Shape(Https, NoCookie, Embed), "abc123_-XY", 0);
  }

  /** A protocol-relative `v/` URL. */
  const RelativeV: string := "//www.youtube.com/v/" + "xyz789"

  lemma RelativeVText()
    ensures Text(Shape(Relative, Standard, V)) == "//www.youtube.com/v/"
  {
  }

  lemma RelativeVIdChars()
    ensures AllIdChars("xyz789")
  {
  }

  lemma RelativeVLacksColonSlash()
    ensures LacksPair(RelativeV, ':', '/')
  {
    assert LacksPair("//www.youtube.com/v/", ':', '/');
    assert LacksPair("xyz789", ':', '/');
    LacksPairJoin("//www.youtube.com/v/", "xyz789", ':', '/');
  }

  lemma RelativeVLacksDSlash()
    ensures LacksPair(RelativeV, 'd', '/')
  {
    assert LacksPair("//www.youtube.com/v/", 'd', '/');
    assert LacksPair("xyz789", 'd', '/');
    LacksPairJoin("//www.youtube.com/v/", "xyz789", 'd', '/');
  }

  /** Neither scheme pattern nor the protocol-relative embed pattern occurs in it. */
  lemma RelativeVEarlierAbsent()
    ensures forall j :: 0 <= j < 3 ==> !Occurs(ValidationPatterns[j], RelativeV)
  {
    RelativeVLacksColonSlash();
    RelativeVLacksDSlash();
    forall x | x in EmbedPattern + RelativeEmbedPattern
      ensures HasPair(Text(x), 'd', '/')
    {
      EmbedTextsHaveDSlash(x);
    }
    forall x | x in VPattern
      ensures HasPair(Text(x), ':', '/')
    {
      SchemeTextsHaveColonSlash(x);
    }
    OccurrenceCarriesPair(EmbedPattern, RelativeV, 'd', '/');
    OccurrenceCarriesPair(VPattern, RelativeV, ':', '/');
    OccurrenceCarriesPair(RelativeEmbedPattern, RelativeV, 'd', '/');
  }

  /** A protocol-relative `v/` URL yields the identifier after `v/`. */
  lemma RelativeVId()
    ensures VideoId(RelativeV) == Some("xyz789")
  {
    RelativeVText();
    RelativeVIdChars();
    RelativeVEarlierAbsent();
    WholeReferenceId(Shape(Relative, Standard, V), "xyz789", 3);
  }

  /** A watch-page URL, matched only by the last pattern. */
  const WatchUrl: string := "https://www.youtube.com/watch?v=" + "dQw4w9WgXcQ"

  lemma WatchText()
    ensures Text(Shape(Https, Standard, Watch)) == "https://www.youtube.com/watch?v="
  {
  }

  lemma WatchIdChars()
    ensures AllIdChars("dQw4w9WgXcQ")
  {
  }

  lemma WatchLacksDSlash()
    ensures LacksPair(WatchUrl, 'd', '/')
  {
    assert LacksPair("https://www.youtube.com/watch?v=", 'd', '/');
    assert LacksPair("dQw4w9WgXcQ", 'd', '/');
    LacksPairJoin("https://www.youtube.com/watch?v=", "dQw4w9WgXcQ", 'd', '/');
  }

  lemma WatchLacksVSlash()
    ensures LacksPair(WatchUrl, 'v', '/')
  {
    assert LacksPair("https://www.youtube.com/watch?v=", 'v', '/');
    assert LacksPair("dQw4w9WgXcQ", 'v', '/');
    LacksPairJoin("https://www.youtube.com/watch?v=", "dQw4w9WgXcQ", 'v', '/');
  }

  /** No embed or `v/` pattern occurs in a `watch?v=` URL. */
  lemma WatchEarlierAbsent()
    ensures forall j :: 0 <= j < 4 ==> !Occurs(ValidationPatterns[j], WatchUrl)
  {
    WatchLacksDSlash();
    WatchLacksVSlash();
    forall x | x in EmbedPattern + RelativeEmbedPattern
      ensures HasPair(Text(x), 'd', '/')
    {
      EmbedTextsHaveDSlash(x);
    }
    forall x | x in VPattern + RelativeVPattern
      ensures HasPair(Text(x), 'v', '/')
    {
      VTextsHaveVSlash(x);
    }
    OccurrenceCarriesPair(EmbedPattern, WatchUrl, 'd', '/');
    OccurrenceCarriesPair(RelativeEmbedPattern, WatchUrl, 'd', '/');
    OccurrenceCarriesPair(VPattern, WatchUrl, 'v', '/');
    OccurrenceCarriesPair(RelativeVPattern, WatchUrl, 'v', '/');
  }

  /** A `watch?v=` URL yields the identifier after `v=`. */
  lemma WatchId()
    ensures VideoId(WatchUrl) == Some("dQw4w9WgXcQ")
  {
    WatchText();
    WatchIdChars();
    WatchEarlierAbsent();
    WholeReferenceId(Shape(Https, Standard, Watch), "dQw4w9WgXcQ", 4);
  }
}

=== FILE: extraction.dfy ===
/** `matchRegexp`: the validation patterns run in order against the stored reference,
    and the first pattern that matches anywhere decides the video identifier. */
module Extraction {
  import opened Wrappers
  import opened Ascii
  import opened Patterns
  import opened Matcher

  /** Which pattern matched, and where its `id` group lies in the reference. */
  datatype Hit = Hit(pattern: nat, span: Span)

  /** `h` is what the ordered search must return: no earlier pattern occurs anywhere
      in `s`, and `h.span` is the leftmost capture of pattern `h.pattern`. */
  ghost predicate Selects(s: string, h: Hit)
  {
    && h.pattern < |ValidationPatterns|
    && (forall j :: 0 <= j < h.pattern ==> !Occurs(ValidationPatterns[j], s))
    && IsLeftmostCapture(ValidationPatterns[h.pattern], s, h.span)
  }

  /** The first pattern of `pats` from index `k` on that matches `s`. */
  function FirstHit(pats: seq<Pattern>, s: string, k: nat): (r: Option<Hit>)
    requires k <= |pats|
    ensures r.None? <==> forall j :: k <= j < |pats| ==> !Occurs(pats[j], s)
    ensures r.Some? ==> k <= r.value.pattern < |pats|
    ensures r.Some? ==> IsLeftmostCapture(pats[r.value.pattern], s, r.value.span)
    ensures r.Some? ==> forall j :: k <= j < r.value.pattern ==> !Occurs(pats[j], s)
    decreases |pats| - k
  {
    if k == |pats| then None
    else
      var here := Find(pats[k], s);
      if here.Some? then Some(Hit(k, here.value))
      else FirstHit(pats, s, k + 1)
  }

  /** `matchRegexp`: the first validation pattern that matches, or FALSE. */
  function MatchRegexp(s: string): (r: Option<Hit>)
    ensures r.None? <==> forall j :: 0 <= j < |ValidationPatterns| ==> !Occurs(ValidationPatterns[j], s)
    ensures r.Some? ==> Selects(s, r.value)
  {
    FirstHit(ValidationPatterns, s, 0)
  }

  /** The `id` group of the match, `$matches['id']`. */
  function VideoId(s: string): (r: Option<string>)
    ensures r.None? <==> forall j :: 0 <= j < |ValidationPatterns| ==> !Occurs(ValidationPatterns[j], s)
    ensures r.Some? ==> 0 < |r.value| && forall k :: 0 <= k < |r.value| ==> IsIdChar(r.value[k])
    ensures r.Some? ==> exists h :: Selects(s, h) && h.span.start <= h.span.end <= |s|
                                    && r.value == s[h.span.start..h.span.end]
  {
    var m := MatchRegexp(s);
    if m.None? then None
    else
      var sp := m.value.span;
      LeftmostCaptureIsRun(ValidationPatterns[m.value.pattern], s, sp);
      RunTextIsId(s, sp);
      assert Selects(s, m.value) && sp.start <= sp.end <= |s|;
      Some(s[sp.start..sp.end])
  }

  /** The ordered search returns exactly the hit `Selects` describes; in particular it
      is determined by the reference. */
  lemma MatchRegexpIsSelection(s: string, h: Hit)
    ensures MatchRegexp(s) == Some(h) <==> Selects(s, h)
  {
    if Selects(s, h) {
      var r := MatchRegexp(s);
      FindIsLeftmostCapture(ValidationPatterns[h.pattern], s, h.span);
      assert Occurs(ValidationPatterns[h.pattern], s);
      var g := r.value;
      FindIsLeftmostCapture(ValidationPatterns[g.pattern], s, g.span);
      assert Occurs(ValidationPatterns[g.pattern], s);
      assert g.pattern == h.pattern;
    }
  }

  /** An alternative's text is its scheme followed by the protocol-relative text. */
  lemma SchemeSplits(x: Shape)
    ensures Text(x) == SchemeText(x.scheme) + Text(Shape(Relative, x.host, x.path))
  {
  }

  /** A literal alternative with a scheme contains the protocol-relative alternative
      right after the scheme. */
  lemma DropScheme(s: string, i: nat, x: Shape)
    requires PrefixAt(s, i, Text(x))
    ensures PrefixAt(s, i + |SchemeText(x.scheme)|, Text(Shape(Relative, x.host, x.path)))
  {
    var y := Shape(Relative, x.host, x.path);
    var n := |SchemeText(x.scheme)|;
    SchemeSplits(x);
    forall k | 0 <= k < |Text(y)|
      ensures Fold(s[i + n..i + n + |Text(y)|][k]) == Fold(Text(y)[k])
    {
      assert Text(y)[k] == Text(x)[n + k];
      assert s[i + n..i + n + |Text(y)|][k] == s[i..i + |Text(x)|][n + k];
    }
  }

  /** If every alternative of `pat`, stripped of its scheme, is an alternative of `rel`,
      then `rel` matches wherever `pat` does, a few characters further on. */
  lemma RelativeFormOccurs(s: string, pat: Pattern, rel: Pattern)
    requires forall x :: x in pat ==> Shape(Relative, x.host, x.path) in rel
    requires Occurs(pat, s)
    ensures Occurs(rel, s)
  {
    var i :| 0 <= i <= |s| && MatchesAt(pat, s, i);
    var x :| x in pat && PrefixAt(s, i, Text(x)) && i + |Text(x)| < |s| && IsIdChar(s[i + |Text(x)|]);
    RelativeMatch(s, rel, i, x);
  }

  /** A match of an alternative with a scheme is a match of its protocol-relative form. */
  lemma RelativeMatch(s: string, rel: Pattern, i: nat, x: Shape)
    requires Shape(Relative, x.host, x.path) in rel
    requires PrefixAt(s, i, Text(x)) && i + |Text(x)| < |s| && IsIdChar(s[i + |Text(x)|])
    ensures MatchesAt(rel, s, i + |SchemeText(x.scheme)|)
  {
    var y := Shape(Relative, x.host, x.path);
    var j := i + |SchemeText(x.scheme)|;
    DropScheme(s, i, x);
    SchemeSplits(x);
    assert j + |Text(y)| == i + |Text(x)|;
    assert y in rel && PrefixAt(s, j, Text(y)) && j + |Text(y)| < |s| && IsIdChar(s[j + |Text(y)|]);
  }

  /** Whatever the first pattern finds, the third finds too, and likewise the second and
      the fourth: the scheme patterns only decide WHICH identifier is taken when a
      reference holds several, never WHETHER one is found. */
  lemma SchemeFormHasRelativeForm(s: string)
    ensures Occurs(EmbedPattern, s) ==> Occurs(RelativeEmbedPattern, s)
    ensures Occurs(VPattern, s) ==> Occurs(RelativeVPattern, s)
  {
    if Occurs(EmbedPattern, s) {
      RelativeFormOccurs(s, EmbedPattern, RelativeEmbedPattern);
    }
    if Occurs(VPattern, s) {
      RelativeFormOccurs(s, VPattern, RelativeVPattern);
    }
  }

  /** "No validation pattern occurs", pattern by pattern. */
  lemma NoPatternOccurs(s: string)
    ensures (forall j :: 0 <= j < |ValidationPatterns| ==> !Occurs(ValidationPatterns[j], s)) <==>
              && !Occurs(EmbedPattern, s) && !Occurs(VPattern, s) && !Occurs(RelativeEmbedPattern, s)
              && !Occurs(RelativeVPattern, s) && !Occurs(WatchPattern, s)
  {
    var ps := ValidationPatterns;
    assert ps[0] == EmbedPattern && ps[1] == VPattern && ps[2] == RelativeEmbedPattern;
    assert ps[3] == RelativeVPattern && ps[4] == WatchPattern;
  }

  /** A reference is accepted exactly when it contains a protocol-relative embed or `/v/`
      URL or a `watch?v=` URL, each followed by an identifier character. */
  lemma AcceptedIffShortForm(s: string)
    ensures MatchRegexp(s).Some? <==>
              Occurs(RelativeEmbedPattern, s) || Occurs(RelativeVPattern, s) || Occurs(WatchPattern, s)
  {
    SchemeFormHasRelativeForm(s);
    NoPatternOccurs(s);
  }

  lemma {:induction false} FirstHitIgnoresCase(pats: seq<Pattern>, s: string, t: string, k: nat)
    requires CaselessEqual(s, t) && k <= |pats|
    ensures FirstHit(pats, s, k) == FirstHit(pats, t, k)
    decreases |pats| - k
  {
    if k < |pats| {
      FindIgnoresCase(pats[k], s, t);
      FirstHitIgnoresCase(pats, s, t, k + 1);
    }
  }

  /** Matching is caseless: references that differ only in letter case select the same
      pattern and the same span. */
  lemma MatchRegexpIgnoresCase(s: string, t: string)
    requires CaselessEqual(s, t)
    ensures MatchRegexp(s) == MatchRegexp(t)
  {
    FirstHitIgnoresCase(ValidationPatterns, s, t, 0);
  }

  /** The identifier is the text of the selected span. */
  lemma VideoIdIsSpanText(s: string)
    ensures MatchRegexp(s).None? ==> VideoId(s).None?
    ensures MatchRegexp(s).Some? ==> var sp := MatchRegexp(s).value.span;
              sp.start <= sp.end <= |s| && VideoId(s) == Some(s[sp.start..sp.end])
  {
    var m := MatchRegexp(s);
    if m.Some? {
      LeftmostCaptureIsRun(ValidationPatterns[m.value.pattern], s, m.value.span);
    }
  }

  /** The identifiers taken from references that differ only in letter case differ at
      most in case themselves: the capture keeps the reference's own letters. */
  lemma VideoIdIgnoresCase(s: string, t: string)
    requires CaselessEqual(s, t)
    ensures VideoId(s).Some? <==> VideoId(t).Some?
    ensures VideoId(s).Some? ==> CaselessEqual(VideoId(s).value, VideoId(t).value)
  {
    MatchRegexpIgnoresCase(s, t);
    VideoIdIsSpanText(s);
    VideoIdIsSpanText(t);
    var m := MatchRegexp(s);
    if m.Some? {
      SliceIgnoresCase(s, t, m.value.span.start, m.value.span.end);
    }
  }
}

=== FILE: matcher.dfy ===
/** One validation pattern run as an unanchored, caseless search: the match starts at
    the leftmost position where some alternative's literal text occurs and is followed
    by at least one identifier character; the greedy `+` then takes the longest run. */
module Matcher {
  import opened Wrappers
  import opened Ascii
  import opened Patterns

  /** The literal `p` occurs, caselessly, in `s` at position `i`. */
  predicate PrefixAt(s: string, i: nat, p: string)
  {
    i + |p| <= |s| && CaselessEqual(s[i..i + |p|], p)
  }

  /** Where the captured identifier lies in the subject string: `s[start..end]`. */
  datatype Span = Span(start: nat, end: nat)

  /** The pattern matches at `i`: an alternative's text starts there and at least one
      identifier character follows it. */
  ghost predicate MatchesAt(pat: Pattern, s: string, i: nat)
  {
    exists x :: x in pat && PrefixAt(s, i, Text(x)) && i + |Text(x)| < |s| && IsIdChar(s[i + |Text(x)|])
  }

  /** `sp` is a non-empty run of identifier characters that cannot be extended to the right. */
  ghost predicate IsMaximalRun(s: string, sp: Span)
  {
    && sp.start < sp.end <= |s|
    && (forall k :: sp.start <= k < sp.end ==> IsIdChar(s[k]))
    && (sp.end == |s| || !IsIdChar(s[sp.end]))
  }

  /** A match at `i` captures `sp`: the identifier starts right after the alternative's
      text and runs as far as identifier characters go. */
  ghost predicate CapturesAt(pat: Pattern, s: string, i: nat, sp: Span)
  {
    exists x :: x in pat && PrefixAt(s, i, Text(x)) && sp.start == i + |Text(x)| && IsMaximalRun(s, sp)
  }

  /** The pattern matches somewhere in `s`. */
  ghost predicate Occurs(pat: Pattern, s: string)
  {
    exists i :: 0 <= i <= |s| && MatchesAt(pat, s, i)
  }

  /** What `preg_match` captures in the `id` group: the capture of the leftmost match. */
  ghost predicate IsLeftmostCapture(pat: Pattern, s: string, sp: Span)
  {
    exists i :: 0 <= i <= |s| && CapturesAt(pat, s, i, sp) && forall j :: 0 <= j < i ==> !MatchesAt(pat, s, j)
  }

  /** Once one alternative's text occurs at a position, no other alternative's does. */
  lemma OtherShapesExcluded(s: string, i: nat, x: Shape, y: Shape)
    requires x != y && PrefixAt(s, i, Text(x))
    ensures !PrefixAt(s, i, Text(y))
  {
    DistinctShapesDiverge(x, y);
    var k :| 0 <= k < |Text(x)| && k < |Text(y)| && Fold(Text(x)[k]) != Fold(Text(y)[k]);
    assert s[i..i + |Text(x)|][k] == s[i + k];
  }

  /** At a given position at most one alternative's text can occur. */
  lemma OneShapeAt(s: string, i: nat, x: Shape, y: Shape)
    requires PrefixAt(s, i, Text(x)) && PrefixAt(s, i, Text(y))
    ensures x == y
  {
    if x != y {
      OtherShapesExcluded(s, i, x, y);
      assert false;
    }
  }

  /** The first alternative of `pat`, in the engine's order, whose text occurs at `i`. */
  function ShapeAt(pat: Pattern, s: string, i: nat): (r: Option<Shape>)
    ensures r.Some? ==> r.value in pat && PrefixAt(s, i, Text(r.value))
    ensures r.None? ==> forall x :: x in pat ==> !PrefixAt(s, i, Text(x))
  {
    if |pat| == 0 then None
    else if PrefixAt(s, i, Text(pat[0])) then Some(pat[0])
    else ShapeAt(pat[1..], s, i)
  }

  /** The end of the longest run of identifier characters that starts at `j`. */
  function RunEnd(s: string, j: nat): (e: nat)
    requires j <= |s|
    ensures j <= e <= |s|
    ensures forall k :: j <= k < e ==> IsIdChar(s[k])
    ensures e == |s| || !IsIdChar(s[e])
    decreases |s| - j
  {
    if j < |s| && IsIdChar(s[j]) then RunEnd(s, j + 1) else j
  }

  /** Once alternative `x` occurs at `i`, the pattern matches there exactly when an
      identifier character follows `x`'s text. */
  lemma MatchesAfterShape(pat: Pattern, s: string, i: nat, x: Shape)
    requires x in pat && PrefixAt(s, i, Text(x))
    ensures MatchesAt(pat, s, i) <==> i + |Text(x)| < |s| && IsIdChar(s[i + |Text(x)|])
  {
    forall y | y in pat && PrefixAt(s, i, Text(y))
      ensures y == x
    {
      OneShapeAt(s, i, x, y);
    }
  }

  /** The match of `pat` anchored at `i`, if there is one. */
  function SpanAt(pat: Pattern, s: string, i: nat): (r: Option<Span>)
    ensures r.Some? <==> MatchesAt(pat, s, i)
    ensures r.Some? ==> CapturesAt(pat, s, i, r.value)
  {
    match ShapeAt(pat, s, i)
    case None => None
    case Some(x) =>
      var j := i + |Text(x)|;
      MatchesAfterShape(pat, s, i, x);
      if j < |s| && IsIdChar(s[j]) then
        var sp := Span(j, RunEnd(s, j));
        assert IsMaximalRun(s, sp);
        Some(sp)
      else
        None
  }

  /** The leftmost match at or after position `i`. */
  function FindFrom(pat: Pattern, s: string, i: nat): (r: Option<Span>)
    requires i <= |s|
    ensures r.None? ==> forall j :: i <= j <= |s| ==> !MatchesAt(pat, s, j)
    ensures r.Some? ==> exists j :: i <= j <= |s| && CapturesAt(pat, s, j, r.value)
                                    && forall m :: i <= m < j ==> !MatchesAt(pat, s, m)
    decreases |s| - i
  {
    var here := SpanAt(pat, s, i);
    if here.Some? then
      assert CapturesAt(pat, s, i, here.value);
      here
    else if i == |s| then None
    else
      var r := FindFrom(pat, s, i + 1);
      assert r.None? ==> forall j :: i + 1 <= j <= |s| ==> !MatchesAt(pat, s, j);
      assert r.Some? ==> exists j :: i + 1 <= j <= |s| && CapturesAt(pat, s, j, r.value)
                                    && forall m :: i + 1 <= m < j ==> !MatchesAt(pat, s, m);
      r
  }

  /** `preg_match` of one pattern: the capture of its leftmost match, or no match. */
  function Find(pat: Pattern, s: string): (r: Option<Span>)
    ensures r.None? <==> !Occurs(pat, s)
    ensures r.Some? ==> IsLeftmostCapture(pat, s, r.value)
  {
    FindFromCaptures(pat, s);
    FindFrom(pat, s, 0)
  }

  /** A hit of the search from the start is the leftmost capture, and is a match. */
  lemma FindFromCaptures(pat: Pattern, s: string)
    ensures FindFrom(pat, s, 0).Some? ==> Occurs(pat, s) && IsLeftmostCapture(pat, s, FindFrom(pat, s, 0).value)
    ensures FindFrom(pat, s, 0).None? ==> !Occurs(pat, s)
  {
    var r := FindFrom(pat, s, 0);
    if r.Some? {
      var j :| 0 <= j <= |s| && CapturesAt(pat, s, j, r.value) && forall m :: 0 <= m < j ==> !MatchesAt(pat, s, m);
      CaptureIsMatch(pat, s, j, r.value);
    }
  }

  /** A capture is a match. */
  lemma CaptureIsMatch(pat: Pattern, s: string, i: nat, sp: Span)
    requires CapturesAt(pat, s, i, sp)
    ensures MatchesAt(pat, s, i)
  {
    var x :| x in pat && PrefixAt(s, i, Text(x)) && sp.start == i + |Text(x)| && IsMaximalRun(s, sp);
    assert IsIdChar(s[sp.start]);
  }

  /** The leftmost capture is a maximal run of identifier characters. */
  lemma LeftmostCaptureIsRun(pat: Pattern, s: string, sp: Span)
    requires IsLeftmostCapture(pat, s, sp)
    ensures IsMaximalRun(s, sp)
  {
  }

  /** The text of a maximal run is a non-empty string of identifier characters. */
  lemma RunTextIsId(s: string, sp: Span)
    requires IsMaximalRun(s, sp)
    ensures var w := s[sp.start..sp.end]; 0 < |w| && forall k :: 0 <= k < |w| ==> IsIdChar(w[k])
  {
    var w := s[sp.start..sp.end];
    forall k | 0 <= k < |w|
      ensures IsIdChar(w[k])
    {
      assert w[k] == s[sp.start + k];
    }
  }

  /** Two maximal runs from the same start are the same run. */
  lemma MaximalRunUnique(s: string, a: Span, b: Span)
    requires IsMaximalRun(s, a) && IsMaximalRun(s, b) && a.start == b.start
    ensures a == b
  {
  }

  /** The leftmost capture is determined by the subject: no string yields two identifiers. */
  lemma LeftmostCaptureUnique(pat: Pattern, s: string, a: Span, b: Span)
    requires IsLeftmostCapture(pat, s, a) && IsLeftmostCapture(pat, s, b)
    ensures a == b
  {
    var i :| 0 <= i <= |s| && CapturesAt(pat, s, i, a) && forall j :: 0 <= j < i ==> !MatchesAt(pat, s, j);
    var i' :| 0 <= i' <= |s| && CapturesAt(pat, s, i', b) && forall j :: 0 <= j < i' ==> !MatchesAt(pat, s, j);
    CaptureIsMatch(pat, s, i, a);
    CaptureIsMatch(pat, s, i', b);
    assert i == i';
    CaptureUnique(pat, s, i, a, b);
  }

  /** `Find` returns exactly the leftmost capture. */
  lemma FindIsLeftmostCapture(pat: Pattern, s: string, sp: Span)
    ensures Find(pat, s) == Some(sp) <==> IsLeftmostCapture(pat, s, sp)
  {
    if IsLeftmostCapture(pat, s, sp) {
      var i :| 0 <= i <= |s| && CapturesAt(pat, s, i, sp) && forall j :: 0 <= j < i ==> !MatchesAt(pat, s, j);
      CaptureIsMatch(pat, s, i, sp);
      LeftmostCaptureUnique(pat, s, Find(pat, s).value, sp);
    }
  }

  /** The literal comparison sees only folded characters. */
  lemma PrefixAtIgnoresCase(s: string, t: string, i: nat, p: string)
    requires CaselessEqual(s, t)
    ensures PrefixAt(s, i, p) <==> PrefixAt(t, i, p)
  {
    if i + |p| <= |s| {
      SliceIgnoresCase(s, t, i, i + |p|);
    }
  }

  /** Caselessly equal subjects have the same maximal runs. */
  lemma MaximalRunIgnoresCase(s: string, t: string, sp: Span)
    requires CaselessEqual(s, t) && IsMaximalRun(s, sp)
    ensures IsMaximalRun(t, sp)
  {
    forall k | sp.start <= k < sp.end
      ensures IsIdChar(t[k])
    {
      IdCharIgnoresCase(s[k], t[k]);
    }
    if sp.end < |s| {
      IdCharIgnoresCase(s[sp.end], t[sp.end]);
    }
  }

  /** A match survives a change of letter case. */
  lemma MatchIgnoresCase(pat: Pattern, s: string, t: string, i: nat)
    requires CaselessEqual(s, t) && MatchesAt(pat, s, i)
    ensures MatchesAt(pat, t, i)
  {
    var x :| x in pat && PrefixAt(s, i, Text(x)) && i + |Text(x)| < |s| && IsIdChar(s[i + |Text(x)|]);
    PrefixAtIgnoresCase(s, t, i, Text(x));
    IdCharIgnoresCase(s[i + |Text(x)|], t[i + |Text(x)|]);
  }

  /** So does a capture. */
  lemma CaptureIgnoresCase(pat: Pattern, s: string, t: string, i: nat, sp: Span)
    requires CaselessEqual(s, t) && CapturesAt(pat, s, i, sp)
    ensures CapturesAt(pat, t, i, sp)
  {
    var x :| x in pat && PrefixAt(s, i, Text(x)) && sp.start == i + |Text(x)| && IsMaximalRun(s, sp);
    PrefixAtIgnoresCase(s, t, i, Text(x));
    MaximalRunIgnoresCase(s, t, sp);
  }

  /** A match at a given position captures one span only. */
  lemma CaptureUnique(pat: Pattern, s: string, i: nat, a: Span, b: Span)
    requires CapturesAt(pat, s, i, a) && CapturesAt(pat, s, i, b)
    ensures a == b
  {
    var x :| x in pat && PrefixAt(s, i, Text(x)) && a.start == i + |Text(x)| && IsMaximalRun(s, a);
    var y :| y in pat && PrefixAt(s, i, Text(y)) && b.start == i + |Text(y)| && IsMaximalRun(s, b);
    OneShapeAt(s, i, x, y);
    MaximalRunUnique(s, a, b);
  }

  /** The leftmost capture survives a change of letter case: the capture carries over,
      and no earlier position can start to match. */
  lemma LeftmostCaptureIgnoresCase(pat: Pattern, s: string, t: string, sp: Span)
    requires CaselessEqual(s, t) && IsLeftmostCapture(pat, s, sp)
    ensures IsLeftmostCapture(pat, t, sp)
  {
    var i :| 0 <= i <= |s| && CapturesAt(pat, s, i, sp) && forall j :: 0 <= j < i ==> !MatchesAt(pat, s, j);
    CaptureIgnoresCase(pat, s, t, i, sp);
    assert CaselessEqual(t, s);
    forall j | 0 <= j < i
      ensures !MatchesAt(pat, t, j)
    {
      if MatchesAt(pat, t, j) {
        MatchIgnoresCase(pat, t, s, j);
      }
    }
  }

  /** Caseless search: two subjects that differ only in letter case give the same match,
      at the same place. */
  lemma FindIgnoresCase(pat: Pattern, s: string, t: string)
    requires CaselessEqual(s, t)
    ensures Find(pat, s) == Find(pat, t)
  {
    assert CaselessEqual(t, s);
    var a, b := Find(pat, s), Find(pat, t);
    if a.Some? {
      FindIsLeftmostCapture(pat, s, a.value);
      LeftmostCaptureIgnoresCase(pat, s, t, a.value);
      FindIsLeftmostCapture(pat, t, a.value);
    } else if b.Some? {
      FindIsLeftmostCapture(pat, t, b.value);
      LeftmostCaptureIgnoresCase(pat, t, s, b.value);
      FindIsLeftmostCapture(pat, s, b.value);
    }
  }
}

=== FILE: patterns.dfy ===
/** The five validation patterns of the plugin, with every alternative expanded.

    Each pattern is `(scheme) //www.youtube (host) .com/ (path)` followed by the
    identifier group `[a-z0-9_-]+`; the literal part is one of finitely many
    strings, described here by a Shape. */
module Patterns {
  import opened Ascii

  /** `http:` and `https:` from the group `(http|https)`, or nothing in the
      protocol-relative patterns that begin with `//`. */
  datatype Scheme = Http | Https | Relative

  /** The optional group `(-nocookie)?`, or its absence. */
  datatype Host = NoCookie | Standard

  /** The path that precedes the identifier. */
  datatype Path = Embed | V | Watch

  /** One fully expanded literal alternative of a pattern. */
  datatype Shape = Shape(scheme: Scheme, host: Host, path: Path)

  /** A pattern: its alternatives, in the order the regular expression engine tries them
      (`http` before `https`, and the greedy `(-nocookie)?` before its absence). */
  type Pattern = seq<Shape>

  function SchemeText(x: Scheme): string
  {
    match x
    case Http => "http:"
    case Https => "https:"
    case Relative => ""
  }

  function HostText(h: Host): string
  {
    match h
    case NoCookie => "-nocookie"
    case Standard => ""
  }

  function PathText(p: Path): string
  {
    match p
    case Embed => "embed/"
    case V => "v/"
    case Watch => "watch?v="
  }

  /** The literal text an alternative matches before the identifier. */
  function Text(x: Shape): string
  {
    SchemeText(x.scheme) + "//www.youtube" + HostText(x.host) + ".com/" + PathText(x.path)
  }

  /** `(http|https)://www\.youtube(-nocookie)?\.com/embed/` */
  const EmbedPattern: Pattern :=
    [Shape(Http, NoCookie, Embed), Shape(Http, Standard, Embed),
     Shape(Https, NoCookie, Embed), Shape(Https, Standard, Embed)]

  /** `(http|https)://www\.youtube(-nocookie)?\.com/v/` */
  const VPattern: Pattern :=
    [Shape(Http, NoCookie, V), Shape(Http, Standard, V),
     Shape(Https, NoCookie, V), Shape(Https, Standard, V)]

  /** `//www\.youtube(-nocookie)?\.com/embed/` */
  const RelativeEmbedPattern: Pattern :=
    [Shape(Relative, NoCookie, Embed), Shape(Relative, Standard, Embed)]

  /** `//www\.youtube(-nocookie)?\.com/v/` */
  const RelativeVPattern: Pattern :=
    [Shape(Relative, NoCookie, V), Shape(Relative, Standard, V)]

  /** `(http|https)://www\.youtube\.com/watch\?v=`: a scheme is required and there is
      no `-nocookie` variant. */
  const WatchPattern: Pattern :=
    [Shape(Http, Standard, Watch), Shape(Https, Standard, Watch)]

  /** The validation patterns in the order they are tried. */
  const ValidationPatterns: seq<Pattern> :=
    [EmbedPattern, VPattern, RelativeEmbedPattern, RelativeVPattern, WatchPattern]

  /** Two strings disagree, caselessly, somewhere within their common length. */
  ghost predicate Diverge(p: string, q: string)
  {
    exists k :: 0 <= k < |p| && k < |q| && Fold(p[k]) != Fold(q[k])
  }

  /** The alternatives are prefix-free even across patterns: two different shapes
      disagree within their common length, so at any position at most one of them
      can match. (`http:` and `https` part at the fifth character, `.com` and
      `-nocookie` at the character after `youtube`, the paths at their first.) */
  lemma DistinctShapesDiverge(x: Shape, y: Shape)
    requires x != y
    ensures Diverge(Text(x), Text(y))
  {
    var tx, ty := Text(x), Text(y);
    if x.scheme != y.scheme {
      var k := if x.scheme == Relative || y.scheme == Relative then 0 else 4;
      assert Fold(tx[k]) != Fold(ty[k]);
    } else if x.host != y.host {
      var k := |SchemeText(x.scheme)| + 13;
      assert Fold(tx[k]) != Fold(ty[k]);
    } else {
      var k := |SchemeText(x.scheme)| + 13 + |HostText(x.host)| + 5;
      assert Fold(tx[k]) != Fold(ty[k]);
    }
  }
}

=== FILE: remote.dfy ===
/** The remote metadata feed and the per-instance memo in front of it (`getMetadata`). */
module Remote {
  import opened Wrappers
  import opened Thumbnails

  /** A network request the plugin issues: a load of the metadata feed, or a download
      of an image. */
  datatype Request = FeedRequest(url: string) | ImageRequest(url: string)

  /** The instance's `$metadata` property: not yet set, or holding what the first load
      returned. A failed load (FALSE) is held too, since `isset` is true of FALSE; the
      document is reduced to its list of thumbnails. */
  datatype Cache = Unset | Held(doc: Option<seq<Thumb>>)

  /** The feed a video's metadata is loaded from. */
  function FeedUrl(id: string): string
  {
    "http://gdata.youtube.com/feeds/api/videos/" + id
  }

  /** The result of `getMetadata`: the document, the instance's cache afterwards, and
      the requests issued. */
  datatype Lookup = Lookup(doc: Option<seq<Thumb>>, cache: Cache, requests: seq<Request>)

  /** `getMetadata($id)`: loads the feed of `id` through `load` only when nothing is held
      yet; afterwards the held document is returned whatever id is passed. */
  function GetMetadata(cache: Cache, id: string, load: string -> Option<seq<Thumb>>): (r: Lookup)
    ensures r.cache == Held(r.doc)
    ensures cache.Held? ==> r.doc == cache.doc && r.requests == []
    ensures cache.Unset? ==> r.doc == load(FeedUrl(id)) && r.requests == [FeedRequest(FeedUrl(id))]
  {
    match cache
    case Held(doc) => Lookup(doc, cache, [])
    case Unset =>
      var url := FeedUrl(id);
      var doc := load(url);
      Lookup(doc, Held(doc), [FeedRequest(url)])
  }

  /** The number of feed loads among `rs`. */
  function FeedCount(rs: seq<Request>): nat
  {
    if |rs| == 0 then 0
    else (if rs[0].FeedRequest? then 1 else 0) + FeedCount(rs[1..])
  }

  lemma {:induction false} FeedCountAppend(a: seq<Request>, b: seq<Request>)
    ensures FeedCount(a + b) == FeedCount(a) + FeedCount(b)
    decreases |a|
  {
    if |a| == 0 {
      assert a + b == b;
    } else {
      assert (a + b)[0] == a[0] && (a + b)[1..] == a[1..] + b;
      FeedCountAppend(a[1..], b);
    }
  }

  /** Feed loads an instance may still issue: one while nothing is held, none after. */
  function Budget(cache: Cache): nat
  {
    if cache.Unset? then 1 else 0
  }

  /** The documents a sequence of `getMetadata` calls on one instance returns, with the
      cache and requests they leave behind. */
  datatype Lookups = Lookups(docs: seq<Option<seq<Thumb>>>, cache: Cache, requests: seq<Request>)

  function GetMetadataEach(cache: Cache, ids: seq<string>, load: string -> Option<seq<Thumb>>): (r: Lookups)
    ensures |r.docs| == |ids|
    decreases |ids|
  {
    if |ids| == 0 then Lookups([], cache, [])
    else
      var first := GetMetadata(cache, ids[0], load);
      var rest := GetMetadataEach(first.cache, ids[1..], load);
      Lookups([first.doc] + rest.docs, rest.cache, first.requests + rest.requests)
  }

  /** The memo is one slot, not keyed by id: over any sequence of calls the feed is loaded
      at most once, and every call returns the document of the first id ever passed. */
  lemma {:induction false} MemoIgnoresLaterIds(cache: Cache, ids: seq<string>, load: string -> Option<seq<Thumb>>)
    ensures FeedCount(GetMetadataEach(cache, ids, load).requests) <= Budget(cache)
    ensures cache.Held? ==> forall k :: 0 <= k < |ids| ==> GetMetadataEach(cache, ids, load).docs[k] == cache.doc
    ensures cache.Unset? && |ids| > 0 ==>
              forall k :: 0 <= k < |ids| ==> GetMetadataEach(cache, ids, load).docs[k] == load(FeedUrl(ids[0]))
    decreases |ids|
  {
    if |ids| > 0 {
      var first := GetMetadata(cache, ids[0], load);
      var rest := GetMetadataEach(first.cache, ids[1..], load);
      MemoIgnoresLaterIds(first.cache, ids[1..], load);
      FeedCountAppend(first.requests, rest.requests);
      assert FeedCount(first.requests) == (if cache.Unset? then 1 else 0) by {
        if cache.Unset? {
          assert FeedCount(first.requests[1..]) == 0;
        }
      }
      var r := GetMetadataEach(cache, ids, load);
      forall k | 0 <= k < |ids|
        ensures r.docs[k] == first.doc
      {
        if k > 0 {
          assert r.docs[k] == rest.docs[k - 1];
        }
      }
    }
  }
}

=== FILE: thumbnails.dfy ===
/** The fallback choice of a thumbnail when the conventional max-resolution image cannot
    be fetched: a scan over the feed's thumbnails that keeps the widest one seen. */
module Thumbnails {

  /** One `media:thumbnail` element of the feed: its `width` attribute cast to an
      integer, and its `url` attribute. */
  datatype Thumb = Thumb(width: int, url: string)

  /** The state of the scan: the best width so far and the URL kept with it. */
  datatype Best = Best(size: int, url: string)

  /** Entry `k` is the first entry of strictly maximal width. */
  ghost predicate FirstWidest(thumbs: seq<Thumb>, k: int)
  {
    && 0 <= k < |thumbs|
    && (forall j :: 0 <= j < |thumbs| ==> thumbs[j].width <= thumbs[k].width)
    && (forall j :: 0 <= j < k ==> thumbs[j].width < thumbs[k].width)
  }

  /** The loop from `best`: an entry replaces the kept one only when it is strictly wider. */
  function Scan(thumbs: seq<Thumb>, best: Best): (r: Best)
    ensures r.size >= best.size
    ensures forall j :: 0 <= j < |thumbs| ==> thumbs[j].width <= r.size
    ensures r.size == best.size ==> r.url == best.url
    ensures r.size > best.size ==>
              exists k :: 0 <= k < |thumbs| && thumbs[k].width == r.size && thumbs[k].url == r.url
                          && forall j :: 0 <= j < k ==> thumbs[j].width < r.size
    decreases |thumbs|
  {
    if |thumbs| == 0 then best
    else
      var next := if best.size < thumbs[0].width then Best(thumbs[0].width, thumbs[0].url) else best;
      var r := Scan(thumbs[1..], next);
      assert r.size > next.size ==>
               exists k :: 1 <= k < |thumbs| && thumbs[k].width == r.size && thumbs[k].url == r.url
                           && forall j :: 1 <= j < k ==> thumbs[j].width < r.size
      by {
        if r.size > next.size {
          var k :| 0 <= k < |thumbs[1..]| && thumbs[1..][k].width == r.size && thumbs[1..][k].url == r.url
                   && forall j :: 0 <= j < k ==> thumbs[1..][j].width < r.size;
          assert thumbs[k + 1] == thumbs[1..][k];
          assert forall j :: 1 <= j < k + 1 ==> thumbs[j] == thumbs[1..][j - 1];
        }
      }
      r
  }

  /** The loop as the plugin runs it: the size starts at 0 and the URL at the
      max-resolution default, which is kept when no entry is wider than 0. */
  function PickThumbnail(thumbs: seq<Thumb>, default: string): (url: string)
    ensures (forall j :: 0 <= j < |thumbs| ==> thumbs[j].width <= 0) ==> url == default
    ensures (exists j :: 0 <= j < |thumbs| && thumbs[j].width > 0) ==>
              exists k :: FirstWidest(thumbs, k) && thumbs[k].width > 0 && url == thumbs[k].url
  {
    var r := Scan(thumbs, Best(0, default));
    if r.size > 0 then
      var k :| 0 <= k < |thumbs| && thumbs[k].width == r.size && thumbs[k].url == r.url
               && forall j :: 0 <= j < k ==> thumbs[j].width < r.size;
      assert FirstWidest(thumbs, k);
      r.url
    else
      r.url
  }

  /** The first widest entry is unique, so the choice does not depend on how ties are
      broken beyond "first". */
  lemma FirstWidestUnique(thumbs: seq<Thumb>, a: int, b: int)
    requires FirstWidest(thumbs, a) && FirstWidest(thumbs, b)
    ensures a == b
  {
    assert thumbs[a].width == thumbs[b].width;
  }
}

=== FILE: wrappers.dfy ===
/** The optional value used wherever the plugin returns either a result or FALSE. */
module Wrappers {

  datatype Option<+T> = None | Some(value: T)
}

=== FILE: youtube.dfy ===
/** The media-type plugin itself: validation of the stored reference, the fields it
    provides, and the thumbnail it reports.

    Everything the plugin reaches through the framework is explicit here: the
    configuration values are a Settings record, the file system and the network are
    the functions of a World, and the instance's metadata memo is a Cache passed in
    and handed back. */
module YouTube {
  import opened Wrappers
  import opened Patterns
  import opened Matcher
  import opened Extraction
  import opened Thumbnails
  import opened Remote

  /** The configuration the plugin reads: its `source_field`, the `local_images`
      directory and the `icon_base` directory. */
  datatype Settings = Settings(sourceField: string, localImages: string, iconBase: string)

  /** The outside world: whether a file exists, `file_get_contents` of a URL (None for
      FALSE), and the metadata feed loader (None for FALSE). */
  datatype World = World(
    fileExists: string -> bool,
    fetch: string -> Option<string>,
    load: string -> Option<seq<Thumb>>)

  /** What a field lookup returns: FALSE or a string. */
  datatype FieldValue = False | Str(text: string)

  /** A call either returns, or stops the request with a fatal error (a method called
      on FALSE or on a missing element). */
  datatype Outcome = Returned(value: FieldValue) | Fatal

  /** A `file_unmanaged_save_data` call: where, and what was handed to it. */
  datatype Save = Save(path: string, data: Option<string>)

  /** The outcome of one call, with the instance's cache afterwards and the effects. */
  datatype FieldStep = FieldStep(outcome: Outcome, cache: Cache, requests: seq<Request>, saves: seq<Save>)

  /** The names `providedFields` lists. */
  const ProvidedFields: set<string> :=
    {"video_id", "image_local", "image_local_uri", "remote_thumbnail",
     "width", "height", "autoplay", "privacy_mode"}

  /** The exception `validate` raises. */
  datatype MediaTypeException = MediaTypeException(field: string, message: string)

  datatype Validation = Valid | Invalid(error: MediaTypeException)

  /** A step with no effect. */
  function Quiet(value: FieldValue, cache: Cache): FieldStep
  {
    FieldStep(Returned(value), cache, [], [])
  }

  /** Where the local copy of a video's thumbnail lives. */
  function LocalUri(base: string, id: string): string
  {
    base + "/" + id + ".jpg"
  }

  /** The conventional max-resolution thumbnail of a video. */
  function MaxResUrl(id: string): string
  {
    "http://img.youtube.com/vi/" + id + "/maxresdefault.jpg"
  }

  /** PHP truthiness of what `file_get_contents` returned: FALSE, the empty string and
      the string "0" are all false. */
  predicate Truthy(data: Option<string>)
  {
    data.Some? && data.value != "" && data.value != "0"
  }

  /** `validate`: returns when a pattern matches, and otherwise raises an exception
      naming the configured source field. */
  function Validate(settings: Settings, reference: string): (r: Validation)
    ensures r.Valid? <==> exists j :: 0 <= j < |ValidationPatterns| && Occurs(ValidationPatterns[j], reference)
    ensures r.Invalid? ==> r.error == MediaTypeException(settings.sourceField, "Not valid URL/embed code.")
  {
    if MatchRegexp(reference).Some? then Valid
    else Invalid(MediaTypeException(settings.sourceField, "Not valid URL/embed code."))
  }

  /** The `image_local` case for a matched identifier. */
  function ImageLocal(settings: Settings, world: World, cache: Cache, id: string): (r: FieldStep)
    ensures world.fileExists(LocalUri(settings.localImages, id)) ==> r == Quiet(False, cache)
    ensures !world.fileExists(LocalUri(settings.localImages, id)) ==>
              && |r.requests| > 0 && r.requests[0] == ImageRequest(MaxResUrl(id))
              && (r.outcome.Returned? ==> r.outcome.value == Str(LocalUri(settings.localImages, id))
                                          && |r.saves| == 1 && r.saves[0].path == LocalUri(settings.localImages, id))
              && (r.outcome.Fatal? ==> r.saves == [])
    // A usable max-resolution download is saved as it is, with no feed load.
    ensures !world.fileExists(LocalUri(settings.localImages, id)) && Truthy(world.fetch(MaxResUrl(id))) ==>
              r == FieldStep(Returned(Str(LocalUri(settings.localImages, id))), cache,
                             [ImageRequest(MaxResUrl(id))],
                             [Save(LocalUri(settings.localImages, id), world.fetch(MaxResUrl(id)))])
    // The call dies exactly when it needs the feed and the feed is FALSE.
    ensures r.outcome.Fatal? <==>
              && !world.fileExists(LocalUri(settings.localImages, id))
              && !Truthy(world.fetch(MaxResUrl(id)))
              && GetMetadata(cache, id, world.load).doc.None?
    // The fallback goes through the memo: the instance afterwards holds what the
    // lookup holds, and the only feed loads are the lookup's.
    ensures !world.fileExists(LocalUri(settings.localImages, id)) && !Truthy(world.fetch(MaxResUrl(id))) ==>
              && r.cache == GetMetadata(cache, id, world.load).cache
              && FeedCount(r.requests) == FeedCount(GetMetadata(cache, id, world.load).requests)
    // Exactly two downloads at most: the max-resolution URL, then, when a document is
    // held, the URL the widest-thumbnail loop picks, whose data alone is saved.
    ensures !world.fileExists(LocalUri(settings.localImages, id)) && !Truthy(world.fetch(MaxResUrl(id))) ==>
              var l := GetMetadata(cache, id, world.load);
              && r.requests == [ImageRequest(MaxResUrl(id))] + l.requests
                               + (if l.doc.Some? then [ImageRequest(PickThumbnail(l.doc.value, MaxResUrl(id)))] else [])
              && r.saves == (if l.doc.Some? then [Save(LocalUri(settings.localImages, id),
                                                       world.fetch(PickThumbnail(l.doc.value, MaxResUrl(id))))]
                             else [])
    ensures FeedCount(r.requests) + Budget(r.cache) <= Budget(cache)
    ensures cache.Held? ==> r.cache == cache
  {
    var uri := LocalUri(settings.localImages, id);
    if world.fileExists(uri) then Quiet(False, cache)
    else
      var maxres := MaxResUrl(id);
      var data := world.fetch(maxres);
      if Truthy(data) then
        FieldStep(Returned(Str(uri)), cache, [ImageRequest(maxres)], [Save(uri, data)])
      else
        var lookup := GetMetadata(cache, id, world.load);
        FeedCountAppend([ImageRequest(maxres)], lookup.requests);
        match lookup.doc
        case None =>
          FieldStep(Fatal, lookup.cache, [ImageRequest(maxres)] + lookup.requests, [])
        case Some(thumbs) =>
          var url := PickThumbnail(thumbs, maxres);
          FeedCountAppend([ImageRequest(maxres)] + lookup.requests, [ImageRequest(url)]);
          FieldStep(Returned(Str(uri)), lookup.cache,
                    [ImageRequest(maxres)] + lookup.requests + [ImageRequest(url)],
                    [Save(uri, world.fetch(url))])
  }

  /** The `remote_thumbnail` case: the URL of the held document's first thumbnail. */
  function RemoteThumbnail(world: World, cache: Cache, id: string): (r: FieldStep)
    ensures GetMetadata(cache, id, world.load).doc.None? ==> r.outcome == Returned(False)
    ensures var doc := GetMetadata(cache, id, world.load).doc;
            doc.Some? && |doc.value| > 0 ==> r.outcome == Returned(Str(doc.value[0].url))
    ensures GetMetadata(cache, id, world.load).doc == Some([]) ==> r.outcome.Fatal?
    ensures r.cache == GetMetadata(cache, id, world.load).cache
    ensures r.requests == GetMetadata(cache, id, world.load).requests
    ensures r.saves == []
    ensures FeedCount(r.requests) + Budget(r.cache) <= Budget(cache)
    ensures cache.Held? ==> r.cache == cache
  {
    var lookup := GetMetadata(cache, id, world.load);
    match lookup.doc
    case None => FieldStep(Returned(False), lookup.cache, lookup.requests, [])
    case Some(thumbs) =>
      if |thumbs| == 0 then FieldStep(Fatal, lookup.cache, lookup.requests, [])
      else FieldStep(Returned(Str(thumbs[0].url)), lookup.cache, lookup.requests, [])
  }

  /** `getField($media, $name)`. */
  function GetField(settings: Settings, world: World, cache: Cache, reference: string, name: string): (r: FieldStep)
    ensures VideoId(reference).None? ==> r == Quiet(False, cache)
    ensures VideoId(reference).Some? && name == "video_id" ==> r == Quiet(Str(VideoId(reference).value), cache)
    ensures VideoId(reference).Some? && name == "image_local_uri" ==>
              r == Quiet(Str(settings.localImages + "/" + VideoId(reference).value + ".jpg"), cache)
    ensures VideoId(reference).Some? && name == "image_local" ==>
              r == ImageLocal(settings, world, cache, VideoId(reference).value)
    ensures VideoId(reference).Some? && name == "remote_thumbnail" ==>
              r == RemoteThumbnail(world, cache, VideoId(reference).value)
    ensures name !in {"video_id", "image_local", "image_local_uri", "remote_thumbnail"} ==> r == Quiet(False, cache)
    ensures name != "image_local" ==> r.saves == []
    ensures FeedCount(r.requests) + Budget(r.cache) <= Budget(cache)
    ensures cache.Held? ==> r.cache == cache
  {
    match VideoId(reference)
    case None => Quiet(False, cache)
    case Some(id) =>
      if name == "video_id" then Quiet(Str(id), cache)
      else if name == "image_local" then ImageLocal(settings, world, cache, id)
      else if name == "image_local_uri" then Quiet(Str(LocalUri(settings.localImages, id)), cache)
      else if name == "remote_thumbnail" then RemoteThumbnail(world, cache, id)
      // "width", "height", "autoplay" and "privacy_mode" are cases that return FALSE,
      // like any other name.
      else Quiet(False, cache)
  }

  /** `thumbnail`: asks for the field "local_image", which is not a case of the switch,
      and otherwise falls back to the generic icon. */
  function Thumbnail(settings: Settings, world: World, cache: Cache, reference: string): (r: FieldStep)
    ensures r == Quiet(Str(settings.iconBase + "/youtube.png"), cache)
  {
    var step := GetField(settings, world, cache, reference, "local_image");
    var icon := FieldStep(Returned(Str(settings.iconBase + "/youtube.png")), step.cache, step.requests, step.saves);
    match step.outcome
    case Fatal => step
    case Returned(Str(local)) => if Truthy(Some(local)) then step else icon
    case Returned(False) => icon
  }

  /** `validate` accepts exactly the references for which `getField` yields a video id;
      the error it raises otherwise names the source field. */
  lemma ValidateIffVideoId(settings: Settings, world: World, cache: Cache, reference: string)
    ensures Validate(settings, reference).Valid? <==>
              GetField(settings, world, cache, reference, "video_id").outcome.Returned?
              && GetField(settings, world, cache, reference, "video_id").outcome.value.Str?
  {
  }

  /** The field `thumbnail` asks for is not one the plugin provides. */
  lemma LocalImageNotProvided()
    ensures "local_image" !in ProvidedFields
  {
    // Only "image_local" has the same length, and it starts with another letter.
    assert "local_image"[0] != "image_local"[0];
  }

  /** Every name that can yield a string is one of the provided fields; the name
      `thumbnail` asks for is not. */
  lemma TextOnlyForProvidedFields(settings: Settings, world: World, cache: Cache, reference: string, name: string)
    ensures var out := GetField(settings, world, cache, reference, name).outcome;
            out.Returned? && out.value.Str? ==> name in ProvidedFields
    ensures "local_image" !in ProvidedFields
  {
    if name !in ProvidedFields {
      assert name !in {"video_id", "image_local", "image_local_uri", "remote_thumbnail"};
    }
    LocalImageNotProvided();
  }

  /** The fields depend on the reference only through the extracted identifier. */
  lemma FieldsDependOnlyOnId(settings: Settings, world: World, cache: Cache, a: string, b: string, name: string)
    requires VideoId(a) == VideoId(b)
    ensures GetField(settings, world, cache, a, name) == GetField(settings, world, cache, b, name)
  {
  }

  /** `image_local` returns the same path `image_local_uri` computes, when it returns a
      path at all; and when that file already exists it returns FALSE without any
      request or write. */
  lemma ImageLocalAgreesWithUri(settings: Settings, world: World, cache: Cache, reference: string)
    requires VideoId(reference).Some?
    ensures var local := GetField(settings, world, cache, reference, "image_local");
            var uri := GetField(settings, world, cache, reference, "image_local_uri").outcome.value.text;
            && (local.outcome.Returned? && local.outcome.value.Str? ==> local.outcome.value.text == uri)
            && (world.fileExists(uri) <==> local == Quiet(False, cache))
  {
  }

  /** When the max-resolution image is missing (or falsy) and a document is available,
      the second download is the first widest thumbnail of the document, or the
      max-resolution URL again when no thumbnail is wider than 0, and its data is saved. */
  lemma ImageLocalFallsBackToWidest(settings: Settings, world: World, cache: Cache, reference: string, thumbs: seq<Thumb>)
    requires VideoId(reference).Some?
    requires var id := VideoId(reference).value;
             && !world.fileExists(LocalUri(settings.localImages, id))
             && !Truthy(world.fetch(MaxResUrl(id)))
             && GetMetadata(cache, id, world.load).doc == Some(thumbs)
    ensures var id := VideoId(reference).value;
            var r := GetField(settings, world, cache, reference, "image_local");
            var url := PickThumbnail(thumbs, MaxResUrl(id));
            && r.outcome == Returned(Str(LocalUri(settings.localImages, id)))
            && r.requests[|r.requests| - 1] == ImageRequest(url)
            && r.saves == [Save(LocalUri(settings.localImages, id), world.fetch(url))]
  {
  }

  /** The memo makes `remote_thumbnail` stale: once a document is held, every reference
      that matches gets the held document's first thumbnail, whichever video it names. */
  lemma RemoteThumbnailIsStale(settings: Settings, world: World, thumbs: seq<Thumb>, reference: string)
    requires |thumbs| > 0 && VideoId(reference).Some?
    ensures GetField(settings, world, Held(Some(thumbs)), reference, "remote_thumbnail")
            == Quiet(Str(thumbs[0].url), Held(Some(thumbs)))
  {
  }

  /** One `getField` call on an instance: the reference and the field name. */
  datatype Call = Call(reference: string, name: string)

  /** What a sequence of calls on one instance returns and does. */
  datatype Trace = Trace(outcomes: seq<Outcome>, cache: Cache, requests: seq<Request>, saves: seq<Save>)

  /** The paths a sequence of saves writes. */
  function SavedPaths(saves: seq<Save>): set<string>
  {
    set k | 0 <= k < |saves| :: saves[k].path
  }

  /** The world as the later calls of a request see it: every path saved so far exists.
      `file_unmanaged_save_data` is taken to create its file (a failed write is not
      modelled); downloads and feed loads are unaffected. */
  function AfterSaves(world: World, saves: seq<Save>): (w: World)
    ensures w.fetch == world.fetch && w.load == world.load
  {
    var saved := SavedPaths(saves);
    world.(fileExists := p => world.fileExists(p) || p in saved)
  }

  /** After a run of saves, a path exists exactly when it existed before or was saved. */
  lemma AfterSavesSees(world: World, saves: seq<Save>, p: string)
    ensures AfterSaves(world, saves).fileExists(p) <==> world.fileExists(p) || p in SavedPaths(saves)
  {
  }

  /** What one call of a request does, given the world it runs in and the instance's
      cache. */
  type Step = (World, Cache, Call) -> FieldStep

  /** The calls of a request, made in order by `step`: each call sees the files the
      earlier ones saved and the cache they left, and a fatal error ends the request,
      so the calls after it do not run. */
  function Run(step: Step, world: World, cache: Cache, calls: seq<Call>): (t: Trace)
    ensures |t.outcomes| <= |calls|
    ensures |calls| > 0 ==> |t.outcomes| > 0
    decreases |calls|
  {
    if |calls| == 0 then Trace([], cache, [], [])
    else
      var first := step(world, cache, calls[0]);
      if first.outcome.Fatal? then Trace([Fatal], first.cache, first.requests, first.saves)
      else
        var rest := Run(step, AfterSaves(world, first.saves), first.cache, calls[1..]);
        Trace([first.outcome] + rest.outcomes, rest.cache, first.requests + rest.requests, first.saves + rest.saves)
  }

  /** A run's first outcome is its first call's, made in the given world on the given
      cache; after a call that returns, the run goes on in the world that call's saves
      leave and on the cache it leaves, and its requests and saves come first. */
  lemma RunInOrder(step: Step, world: World, cache: Cache, calls: seq<Call>)
    ensures |calls| > 0 ==> Run(step, world, cache, calls).outcomes[0] == step(world, cache, calls[0]).outcome
    ensures |calls| > 0 ==>
              var first := step(world, cache, calls[0]);
              var t := Run(step, world, cache, calls);
              var rest := Run(step, AfterSaves(world, first.saves), first.cache, calls[1..]);
              first.outcome.Returned? ==>
                && t.outcomes[1..] == rest.outcomes
                && t.cache == rest.cache
                && t.saves == first.saves + rest.saves
                && t.requests == first.requests + rest.requests
  {
  }

  /** A run stops at its first fatal error and no earlier: every outcome before the
      last returned, and a run cut short ends in the fatal one. */
  lemma {:induction false} RunStopsAtFirstFatal(step: Step, world: World, cache: Cache, calls: seq<Call>)
    ensures var t := Run(step, world, cache, calls);
            forall k :: 0 <= k < |t.outcomes| - 1 ==> t.outcomes[k].Returned?
    ensures var t := Run(step, world, cache, calls);
            |t.outcomes| < |calls| ==> t.outcomes[|t.outcomes| - 1].Fatal?
    decreases |calls|
  {
    if |calls| > 0 {
      var first := step(world, cache, calls[0]);
      if first.outcome.Returned? {
        var later := AfterSaves(world, first.saves);
        var rest := Run(step, later, first.cache, calls[1..]);
        RunStopsAtFirstFatal(step, later, first.cache, calls[1..]);
        var t := Run(step, world, cache, calls);
        assert t.outcomes == [first.outcome] + rest.outcomes;
        forall k | 0 <= k < |t.outcomes| - 1
          ensures t.outcomes[k].Returned?
        {
          if k > 0 {
            assert t.outcomes[k] == rest.outcomes[k - 1];
          }
        }
      }
    }
  }

  /** A run of two calls whose first returns: both outcomes, the second call seeing the
      first one's saves and cache. */
  lemma RunOfTwo(step: Step, world: World, cache: Cache, first: Call, second: Call)
    ensures var s1 := step(world, cache, first);
            var s2 := step(AfterSaves(world, s1.saves), s1.cache, second);
            s1.outcome.Returned? ==>
              Run(step, world, cache, [first, second])
              == Trace([s1.outcome, s2.outcome], s2.cache, s1.requests + s2.requests, s1.saves + s2.saves)
  {
    var s1 := step(world, cache, first);
    if s1.outcome.Returned? {
      var later := AfterSaves(world, s1.saves);
      var s2 := step(later, s1.cache, second);
      assert [first, second][1..] == [second];
      assert [second][1..] == [];
      var rest := Run(step, later, s1.cache, [second]);
      assert rest == Trace([s2.outcome], s2.cache, s2.requests, s2.saves) by {
        assert Run(step, AfterSaves(later, s2.saves), s2.cache, []) == Trace([], s2.cache, [], []);
        assert s2.requests + [] == s2.requests && s2.saves + [] == s2.saves;
      }
    }
  }

  /** If no single call loads the feed more often than the cache it starts from allows,
      neither does a whole run. */
  lemma {:induction false} RunWithinBudget(step: Step, world: World, cache: Cache, calls: seq<Call>)
    requires forall w, c, call :: FeedCount(step(w, c, call).requests) + Budget(step(w, c, call).cache) <= Budget(c)
    ensures FeedCount(Run(step, world, cache, calls).requests) + Budget(Run(step, world, cache, calls).cache) <= Budget(cache)
    decreases |calls|
  {
    if |calls| > 0 {
      var first := step(world, cache, calls[0]);
      if !first.outcome.Fatal? {
        var later := AfterSaves(world, first.saves);
        var rest := Run(step, later, first.cache, calls[1..]);
        RunWithinBudget(step, later, first.cache, calls[1..]);
        FeedCountAppend(first.requests, rest.requests);
      }
    }
  }

  /** A `getField` call on an instance with these settings. */
  function FieldCall(settings: Settings): Step
  {
    (w: World, c: Cache, call: Call) => GetField(settings, w, c, call.reference, call.name)
  }

  /** The `getField` calls of one request on one instance. */
  function Session(settings: Settings, world: World, cache: Cache, calls: seq<Call>): (t: Trace)
    ensures |t.outcomes| <= |calls|
    ensures |calls| > 0 ==> |t.outcomes| > 0
  {
    Run(FieldCall(settings), world, cache, calls)
  }

  /** A session's first outcome is its first `getField` call's; after a call that
      returns, the session goes on in the world that call's saves leave and on the
      cache it leaves. */
  lemma SessionRunsCallsInOrder(settings: Settings, world: World, cache: Cache, calls: seq<Call>)
    ensures |calls| > 0 ==>
              Session(settings, world, cache, calls).outcomes[0]
              == GetField(settings, world, cache, calls[0].reference, calls[0].name).outcome
    ensures |calls| > 0 ==>
              var first := GetField(settings, world, cache, calls[0].reference, calls[0].name);
              var t := Session(settings, world, cache, calls);
              var rest := Session(settings, AfterSaves(world, first.saves), first.cache, calls[1..]);
              first.outcome.Returned? ==>
                && t.outcomes[1..] == rest.outcomes
                && t.cache == rest.cache
                && t.saves == first.saves + rest.saves
                && t.requests == first.requests + rest.requests
  {
    RunInOrder(FieldCall(settings), world, cache, calls);
  }

  /** A request runs its `getField` calls until the first fatal error and no further. */
  lemma SessionStopsAtFirstFatal(settings: Settings, world: World, cache: Cache, calls: seq<Call>)
    ensures var t := Session(settings, world, cache, calls);
            forall k :: 0 <= k < |t.outcomes| - 1 ==> t.outcomes[k].Returned?
    ensures var t := Session(settings, world, cache, calls);
            |t.outcomes| < |calls| ==> t.outcomes[|t.outcomes| - 1].Fatal?
  {
    var t := Run(FieldCall(settings), world, cache, calls);
    RunStopsAtFirstFatal(FieldCall(settings), world, cache, calls);
    assert Session(settings, world, cache, calls) == t;
  }

  /** Two `getField` calls whose first returns: the second sees the first one's saves
      and cache. */
  lemma SessionOfTwo(settings: Settings, world: World, cache: Cache, first: Call, second: Call)
    ensures var s1 := GetField(settings, world, cache, first.reference, first.name);
            var s2 := GetField(settings, AfterSaves(world, s1.saves), s1.cache, second.reference, second.name);
            s1.outcome.Returned? ==>
              Session(settings, world, cache, [first, second])
              == Trace([s1.outcome, s2.outcome], s2.cache, s1.requests + s2.requests, s1.saves + s2.saves)
  {
    RunOfTwo(FieldCall(settings), world, cache, first, second);
  }

  /** Asking twice for `image_local` downloads at most once: whatever the first call
      saved is found by `file_exists` in the second, which returns FALSE. */
  lemma SecondImageLocalFindsTheFile(settings: Settings, world: World, cache: Cache, reference: string)
    ensures var t := Session(settings, world, cache, [Call(reference, "image_local"), Call(reference, "image_local")]);
            t.outcomes[0].Returned? ==> t.outcomes == [t.outcomes[0], Returned(False)] && |t.saves| <= 1
  {
    var call := Call(reference, "image_local");
    var s1 := GetField(settings, world, cache, reference, "image_local");
    SessionOfTwo(settings, world, cache, call, call);
    SessionRunsCallsInOrder(settings, world, cache, [call, call]);
    if s1.outcome.Returned? {
      var later := AfterSaves(world, s1.saves);
      var s2 := GetField(settings, later, s1.cache, reference, "image_local");
      if VideoId(reference).Some? {
        var uri := LocalUri(settings.localImages, VideoId(reference).value);
        assert later.fileExists(uri) by {
          AfterSavesSees(world, s1.saves, uri);
          if !world.fileExists(uri) {
            assert s1.saves[0].path == uri;
          }
        }
        assert s2 == ImageLocal(settings, later, s1.cache, VideoId(reference).value);
      }
      assert s2 == Quiet(False, s1.cache);
      assert |s1.saves| <= 1;
    }
  }


  /** On a fresh instance `remote_thumbnail` loads the video's feed once and keeps it. */
  lemma FreshRemoteThumbnailLoads(settings: Settings, world: World, a: string, thumbs: seq<Thumb>)
    requires VideoId(a).Some?
    requires world.load(FeedUrl(VideoId(a).value)) == Some(thumbs) && |thumbs| > 0
    ensures GetField(settings, world, Unset, a, "remote_thumbnail")
            == FieldStep(Returned(Str(thumbs[0].url)), Held(Some(thumbs)), [FeedRequest(FeedUrl(VideoId(a).value))], [])
  {
  }

  /** A fresh instance is made stale by its first `remote_thumbnail`: a second one, for
      any other video, gets the first video's thumbnail, and the feed is loaded once. */
  lemma FreshInstanceRemoteThumbnailIsStale(settings: Settings, world: World, a: string, b: string, thumbs: seq<Thumb>)
    requires VideoId(a).Some? && VideoId(b).Some?
    requires world.load(FeedUrl(VideoId(a).value)) == Some(thumbs) && |thumbs| > 0
    ensures var t := Session(settings, world, Unset, [Call(a, "remote_thumbnail"), Call(b, "remote_thumbnail")]);
            && t.outcomes == [Returned(Str(thumbs[0].url)), Returned(Str(thumbs[0].url))]
            && t.requests == [FeedRequest(FeedUrl(VideoId(a).value))]
            && t.cache == Held(Some(thumbs))
  {
    FreshRemoteThumbnailLoads(settings, world, a, thumbs);
    var s1 := GetField(settings, world, Unset, a, "remote_thumbnail");
    RemoteThumbnailIsStale(settings, AfterSaves(world, s1.saves), thumbs, b);
    SessionOfTwo(settings, world, Unset, Call(a, "remote_thumbnail"), Call(b, "remote_thumbnail"));
  }

  /** On a fresh instance whose feed load fails, `remote_thumbnail` returns FALSE and
      the instance keeps the failure. */
  lemma FreshRemoteThumbnailFails(settings: Settings, world: World, a: string)
    requires VideoId(a).Some? && world.load(FeedUrl(VideoId(a).value)).None?
    ensures GetField(settings, world, Unset, a, "remote_thumbnail")
            == FieldStep(Returned(False), Held(None), [FeedRequest(FeedUrl(VideoId(a).value))], [])
  {
  }

  /** Once a failure is held, `remote_thumbnail` returns FALSE without loading again. */
  lemma HeldFailureIsQuiet(settings: Settings, world: World, reference: string)
    requires VideoId(reference).Some?
    ensures GetField(settings, world, Held(None), reference, "remote_thumbnail") == Quiet(False, Held(None))
  {
  }

  /** A failed feed load is never retried: after a first `remote_thumbnail` whose load
      fails, a second one, for any video, returns FALSE with no request of its own. */
  lemma FreshInstanceFailedLoadIsHeld(settings: Settings, world: World, a: string, b: string)
    requires VideoId(a).Some? && VideoId(b).Some?
    requires world.load(FeedUrl(VideoId(a).value)).None?
    ensures var t := Session(settings, world, Unset, [Call(a, "remote_thumbnail"), Call(b, "remote_thumbnail")]);
            && t.outcomes == [Returned(False), Returned(False)]
            && t.requests == [FeedRequest(FeedUrl(VideoId(a).value))]
            && t.cache == Held(None)
  {
    FreshRemoteThumbnailFails(settings, world, a);
    var s1 := GetField(settings, world, Unset, a, "remote_thumbnail");
    HeldFailureIsQuiet(settings, AfterSaves(world, s1.saves), b);
    SessionOfTwo(settings, world, Unset, Call(a, "remote_thumbnail"), Call(b, "remote_thumbnail"));
  }

  /** An instance loads the metadata feed at most once, whatever fields of whatever
      references are asked of it, and never once a document (or a failure) is held. */
  lemma SessionLoadsFeedAtMostOnce(settings: Settings, world: World, cache: Cache, calls: seq<Call>)
    ensures FeedCount(Session(settings, world, cache, calls).requests)
            + Budget(Session(settings, world, cache, calls).cache) <= Budget(cache)
  {
    var step := FieldCall(settings);
    forall w, c, call
      ensures FeedCount(step(w, c, call).requests) + Budget(step(w, c, call).cache) <= Budget(c)
    {
      var r := GetField(settings, w, c, call.reference, call.name);
      assert step(w, c, call) == r;
    }
    RunWithinBudget(step, world, cache, calls);
  }
}
